=== FILE: README.md ===
# note-web: note routes as a state machine

A Dafny model of the server core of the note-web application: the Express
router in `server/routes/notes.js` that keeps rows of the `notes` table
(Sequelize model `server/models/note.js`) consistent with image objects in
an S3 bucket.

The two stores are one immutable `NoteStore.State`: the table as a map from
`note_id` to `Note`, the bucket as the set of keys it holds, the table's id
sequence (`nextId`) and a logical clock standing in for `created_at` and
`updated_at`. Each route handler is a pure function from a state, the
request fields and an `Env` to an `Outcome`: the new state, the HTTP-style
response (200/201, 404 `{msg: 'Note not found'}`, or 500 `Server Error`) and
the trace of side-effecting calls it issued, in order, each marked as
succeeded or failed. `Env` is the outside world: a flag per kind of external
call saying whether it fails (find, row write, S3 put, S3 delete), the bytes
`crypto.randomBytes` returned, and the presigner as a partial function
`string -> Option<string>`.

Files:
- `options.dfy` — `Option` (null/undefined).
- `image_name.dfy` — `randomImageName`: hex encoding of the random bytes, with a reference decoder.
- `note_model.dfy` — the `Note` record and what its Postgres columns accept (`integer`, `varchar(n)`, `text`).
- `note_store.dfy` — store state, store calls and their effect (`Apply`, `Replay`).
- `listing.dfy` — the `created_at DESC` order of GET `/`.
- `note_routes.dfy` — the five handlers and the router `Handle`.
- `consistency.dfy` — the note–image invariant and its preservation.
- `update_fix.dfy` — the PUT ordering defect, the corrected handler, and the run-level invariant.
- `route_properties.dfy` — read-after-write round trips, call order, trace replay.

The central invariant (`Consistency.Consistent`): rows are well formed (key
equals `note_id` and lies in the `integer` range, timestamps ordered,
column values storable, image keys are 32
hex digits, no two rows share a key), no row's `image_url` names a missing
object (`NoDangling`), and no object is unreferenced (`NoOrphans`). Given a
fresh 16-byte name from the random source, every request of the server as
written that does not answer 500 keeps it (`Consistency.HandlePreserves`).

## Model

| member | source | states |
|---|---|---|
| ImageName.HexEncode | server/routes/notes.js:16 | `toString('hex')` yields two lower-case hex digits per byte |
| ImageName.RandomImageName | server/routes/notes.js:16 | the key is twice as long as the random draw and decodes back to exactly those bytes |
| ImageName.DecodeEncode | server/routes/notes.js:16 | the hex rendering of any byte string decodes back to it, so it loses nothing |
| ImageName.EncodeInjective | server/routes/notes.js:16 | different random draws give different keys |
| ImageName.GeneratedKeyFits | server/models/note.js:18-21 | a generated key is 32 hex digits, and the `varchar(2048)` `image_url` column stores it unchanged |
| NoteModel.Varchar | server/models/note.js:10-21 | a `varchar(n)` column accepts a value exactly when it holds no U+0000 and everything past `n` characters is a space; it stores a value that fits unchanged and cuts a longer one to exactly `n` characters, dropping only spaces |
| NoteModel.VarcharCutsToWidth | server/models/note.js:10-21 | an accepted over-long value is stored as its first `n` characters, neither fewer nor more (`"a   "` in `varchar(2)` becomes `"a "`) |
| NoteModel.NewRow | server/models/note.js:5-27 | an inserted row has the given id and content, the title and image as their columns store them, is a row the table can hold, and has `created_at = updated_at` |
| NoteModel.StoredRowStoresAsIs | server/models/note.js:10-21 | writing back a stored row's own title, content and image is accepted and stores them unchanged |
| NoteModel.Revised | server/routes/notes.js:138-141 | a saved row keeps `note_id` and `created_at`, takes the new content and the title and image as their columns store them, and stamps `updated_at` |
| Listing.NewestFirst | server/routes/notes.js:33 | the listing order holds every id once and never puts an older row before a newer one |
| NoteRoutes.Present | server/routes/notes.js:62-68 | a display URL is attached exactly when `image_url` is truthy, the stored row is returned unchanged, and a signing failure fails the note |
| NoteRoutes.PresentAll | server/routes/notes.js:36-45 | the loop succeeds exactly when every listed note can be presented, keeping order and length |
| NoteRoutes.ListNotes | server/routes/notes.js:31-52 | GET `/` changes nothing; it answers 200 exactly when the find and every signing succeed, listing every row once under some enumeration of the ids, newest first, each with the signed URL of its key when it has an image and none otherwise; otherwise 500 |
| NoteRoutes.GetNote | server/routes/notes.js:54-75 | GET `/:id` changes nothing; it answers 404 `Note not found` exactly when the find works and no row has the id; a failed find or an id outside the `integer` range gives 500; 200 returns the stored row with the signed URL of its key when it has an image and none otherwise |
| NoteRoutes.Insert | server/routes/notes.js:95-96 | `Note.create` is issued with the given values and succeeds exactly when the write works, the columns accept the values and the id sequence is inside the `integer` range; the row takes the next id, the current time and the values as stored, and no object is touched; otherwise nothing changes |
| NoteRoutes.CreateNote | server/routes/notes.js:77-101 | POST `/` without a file makes no S3 call and stores `image_url = null`; with a file the object is put under the generated key and the row names it; a failed put creates no row; it answers 201 exactly when the put (if any) and the insert work, the title and content are storable and the id sequence is in range |
| NoteRoutes.Save | server/routes/notes.js:137-143 | `note.save()` is issued with the assigned values and succeeds exactly when the write works and the columns accept them, keeping `note_id` and `created_at`; the row then holds the values as the columns store them, while the reply echoes the values as assigned (the two agree when title and image fit their columns); otherwise nothing changes |
| NoteRoutes.UpdateNote | server/routes/notes.js:103-148 | PUT `/:id` answers 404 exactly when the find works and the id is absent, changing nothing; it answers 200 exactly when every call it reaches works and the values are storable; without a file it makes no S3 call and keeps `image_url`; on 200 title and content are replaced and `note_id` and `created_at` kept, and the reply is the instance as assigned, with the title and image key as sent rather than as stored; a failed put changes nothing; a failed delete of the old key keeps the row and leaves the new object unreferenced; once put and delete have worked the bucket has gained the new key and lost the old one, whether or not the save then works |
| NoteRoutes.DeleteNote | server/routes/notes.js:150-178 | DELETE `/:id` answers 404 exactly when the find works and the id is absent, changing nothing; a note without an image causes no S3 call; a failed destroy changes nothing; a failed object delete after the destroy answers 500 with the row gone and the object kept; success removes exactly the row and its object |
| Consistency.CreateGivesFreshId | server/models/note.js:5-9 | the id of a created note belongs to no earlier row |
| Consistency.CreatePreserves | server/routes/notes.js:83-96 | POST keeps rows well formed and dangling-free whatever fails; a successful one adds no orphan |
| Consistency.UpdatePreserves | server/routes/notes.js:112-141 | a PUT that does not answer 500, or carries no file, keeps the invariant |
| Consistency.DeletePreserves | server/routes/notes.js:158-173 | DELETE never leaves a dangling key; a successful one leaves no orphan |
| Consistency.HandlePreserves | server/routes/notes.js:31-178 | every request that does not answer 500 keeps the full invariant; every request except PUT keeps "no dangling key" even when it fails |
| UpdateFix.AsWrittenUpdateCanDangle | server/routes/notes.js:124-141 | if the save is refused after the put and the delete succeeded, the reply is 500, the row is unchanged and names an object that is gone |
| UpdateFix.LongTitleLeavesDanglingKey | server/routes/notes.js:128-141 | with no external failure at all, a 256-character title not ending in a space turns a consistent store into one with a dangling key |
| UpdateFix.UpdateNoteFixed | server/routes/notes.js:116-141 | the corrected PUT: 404 exactly as before and no S3 call without a file; the row either stays or takes the new fields with `note_id`/`created_at` kept, a 200 replying with the assigned values; the bucket gains at most the new key |
| UpdateFix.FixedAgreesWhenNothingFails | server/routes/notes.js:116-143 | with no failure and, when a file is sent, a storable title and content, the corrected PUT reaches the same state and reply as the code |
| UpdateFix.FixedUpdatePreserves | server/routes/notes.js:116-141 | the corrected PUT never leaves a dangling key, whatever fails |
| UpdateFix.HandleFixedPreserves | server/routes/notes.js:31-178 | with the corrected PUT, no request leaves a dangling key |
| UpdateFix.FixedServerNeverDangles | server/routes/notes.js:31-178 | with the corrected PUT, no run of requests, failing or not, leaves a dangling key |
| RouteProperties.CreateThenGet | server/routes/notes.js:54-101 | GET after a successful POST returns the stored title and content, with the signed URL of the generated key exactly when a file was posted |
| RouteProperties.UpdateThenGet | server/routes/notes.js:103-148 | GET after a successful PUT sees the new title and content, the new key only if a file was sent, and the original id and `created_at` |
| RouteProperties.DeleteThenGet | server/routes/notes.js:150-178 | GET after a successful DELETE answers 404, the object is gone, and every other row is untouched |
| RouteProperties.CreateCallOrder | server/routes/notes.js:83-95 | POST puts the object before inserting the row, and inserts nothing when the put fails |
| RouteProperties.UpdateCallOrder | server/routes/notes.js:116-141 | a successful PUT with a file puts the new key, deletes the old key only if there was one, then saves the sent title and content with the new key |
| RouteProperties.FixedUpdateCallOrder | server/routes/notes.js:116-141 | the corrected PUT puts, saves, and only then deletes the old key |
| RouteProperties.DeleteCallOrder | server/routes/notes.js:158-171 | DELETE destroys the row first and deletes the object afterwards exactly when the row had an image |
| RouteProperties.StopsAtFirstFailure | server/routes/notes.js:31-178 | each of the five handlers issues nothing after a failing call, and a failing call always ends in 500 |
| RouteProperties.FixedStopsAtFirstFailure | server/routes/notes.js:31-178 | the same for the router with the corrected PUT |
| RouteProperties.StateFollowsTrace | server/routes/notes.js:77-178 | the state a handler leaves is exactly what the calls it issued, with the values it passed, do when replayed in issue order, a failed call doing nothing |

## Behaviour as coded

The model follows the code in these places, where other behaviour might be
expected:
- A signing failure in GET `/` or GET `/:id` fails the whole request with
  500, because the `await getSignedUrl` sits inside the `try`
  (server/routes/notes.js:43, 67); the note is not returned without a URL.
- PUT deletes the old object before it saves the row. Saving first is
  evidently intended; this is the finding below.
- An empty title is accepted: the column is only `allowNull: false`.
- Every truthy test on `image_url` follows JavaScript: `""` counts as no image.
- A title longer than 255 characters is stored cut to 255 when the excess is
  all spaces, and refused otherwise; any value holding U+0000 is refused.
- An id outside the `integer` range of `note_id` makes GET, PUT and DELETE
  answer 500 rather than 404.
- The 200 reply of PUT is the Sequelize instance after `save()`, which holds
  the values as assigned: a title of 255 letters and three trailing spaces
  is stored as 255 characters but echoed with all 258
  (server/routes/notes.js:137-143).

## Findings

| source | as written | input that shows it | evidently intended | confidence | as-written member | corrected member |
|---|---|---|---|---|---|---|
| server/routes/notes.js:127-141 | PUT deletes the old object, then saves the row; a refused save leaves the row naming the deleted key | a note with an image; PUT with a new file and a 256-character title not ending in a space (the `varchar(255)` column refuses it), or any database error on save | save the row with the new key first, delete the old object afterwards, so a failure leaves at most an orphan | not executed; high | UpdateFix.AsWrittenUpdateCanDangle | UpdateFix.UpdateNoteFixed |

`UpdateFix.FixedUpdatePreserves` and `UpdateFix.FixedServerNeverDangles`
prove the intended property for the corrected handler; the router with it
is `UpdateFix.HandleFixed`.

## Left out

- The S3 SDK, the Sequelize driver and `multer` are abstract calls that succeed or fail per `Faults`; the uploaded bytes and MIME type are not kept (the bucket is a set of keys), so "the URL resolves to the uploaded bytes" is not modelled.
- `getSignedUrl`: the cryptography and the 3600-second expiry are replaced by the `sign` oracle.
- `crypto.randomBytes`: its output is a parameter; freshness of the generated name against the bucket is an assumption (`FreshKey`), not a fact.
- Parsing of `:id`: ids are integers; a non-numeric path id is not modelled.
- Strings are sequences of Unicode scalar values; the lone UTF-16 surrogates a JavaScript string can carry are not modelled.
- Id sequence gaps: `nextId` advances only on a successful insert; values a failed insert may consume in Postgres are not modelled.
- NoteRoutes.Save: stamps `updated_at` on every successful save, also when nothing changed, where Sequelize may skip the UPDATE.
- NoteRoutes.ListNotes: ties in `created_at` are broken by the larger id; the query leaves them unspecified, and the contract promises only the `created_at DESC` order.
- A missing `title` in the request body is treated like `null` (refused by the not-null check).
- The presigned upload-slot flow the client page uses: the server has no such route and PUT reads only `title` and `content`.
- Concurrency between requests: each request is one atomic transition.
- Logging, JSON serialisation, the React client, `server/server.js`, `server/setupDatabase.js` and `server/db/db.js` (process and I/O plumbing; the Redis client there is unused).

=== FILE: consistency.dfy ===
/**
 The note-image consistency invariant and what the routes do to it. A
 row's image key must name an object in the bucket (no dangling key), and
 every object must be named by some row (no orphan). Under the random-name
 oracle (the 16 drawn bytes name no object already in the bucket) every
 request that completes without a 500 keeps the whole invariant.
 */
module Consistency {
  import opened Options
  import opened ImageName
  import opened NoteModel
  import opened NoteStore
  import opened NoteRoutes

  /** Shape of one row: its key, timestamps, column values and image-key form. */
  ghost predicate RowWellFormed(s: State, id: int)
    requires id in s.rows
  {
    var n := s.rows[id];
    && 1 <= id < s.nextId && IsInt32(id)
    && n.noteId == id
    && n.createdAt <= n.updatedAt < s.clock
    && ValidNote(n)
    && (n.imageUrl.Some? ==> IsImageKey(n.imageUrl.value))
  }

  /** No two rows name the same image. */
  ghost predicate KeysDistinct(s: State)
  {
    forall a, b :: a in s.rows && b in s.rows && a != b && s.rows[a].imageUrl.Some? ==>
      s.rows[a].imageUrl != s.rows[b].imageUrl
  }

  ghost predicate WellFormed(s: State)
  {
    && 1 <= s.nextId
    && (forall id :: id in s.rows ==> RowWellFormed(s, id))
    && KeysDistinct(s)
  }

  /** Every row's `image_url` is null or names a stored object. */
  ghost predicate NoDangling(s: State)
  {
    forall id :: id in s.rows && s.rows[id].imageUrl.Some? ==> s.rows[id].imageUrl.value in s.blobs
  }

  /** Every stored object is some row's image. */
  ghost predicate NoOrphans(s: State)
  {
    forall k :: k in s.blobs ==> exists id :: id in s.rows && s.rows[id].imageUrl == Some(k)
  }

  ghost predicate Consistent(s: State)
  {
    WellFormed(s) && NoDangling(s) && NoOrphans(s)
  }

  /** The random-name oracle: the drawn bytes name no stored object yet. */
  ghost predicate FreshKey(s: State, env: Env)
  {
    RandomImageName(env.rnd) !in s.blobs
  }

  lemma InitConsistent()
    ensures Consistent(Init())
  {
  }

  /** A created note gets an id no existing row has. */
  lemma CreateGivesFreshId(s: State, title: Option<string>, content: Option<string>, withImage: bool, env: Env)
    requires WellFormed(s)
    ensures var o := CreateNote(s, title, content, withImage, env);
      o.response.status == StatusCreated ==>
        && o.response.body.view.note.noteId !in s.rows
        && o.response.body.view.note.noteId in o.state.rows
  {
  }

  lemma CreatePreserves(s: State, title: Option<string>, content: Option<string>, withImage: bool, env: Env)
    requires WellFormed(s) && NoDangling(s) && FreshKey(s, env)
    ensures var o := CreateNote(s, title, content, withImage, env);
      && WellFormed(o.state) && NoDangling(o.state)
      && (NoOrphans(s) && o.response != Failed ==> NoOrphans(o.state))
  {
    var o := CreateNote(s, title, content, withImage, env);
    var key := RandomImageName(env.rnd);
    GeneratedKeyFits(env.rnd);
    if o.response != Failed {
      var n := o.response.body.view.note;
      assert o.state.rows == s.rows[s.nextId := n];
      assert !withImage ==> o.state.blobs == s.blobs;
      assert s.nextId !in s.rows;
      forall id | id in o.state.rows
        ensures RowWellFormed(o.state, id)
      {
        if id != s.nextId {
          assert RowWellFormed(s, id);
        }
      }
      forall k | NoOrphans(s) && k in o.state.blobs
        ensures exists id :: id in o.state.rows && o.state.rows[id].imageUrl == Some(k)
      {
        if withImage && k == key {
          assert o.state.rows[s.nextId].imageUrl == Some(k);
        } else {
          var id :| id in s.rows && s.rows[id].imageUrl == Some(k);
          assert o.state.rows[id].imageUrl == Some(k);
        }
      }
    }
  }

  lemma UpdatePreserves(s: State, id: int, title: Option<string>, content: Option<string>, withImage: bool, env: Env)
    requires WellFormed(s) && NoDangling(s) && FreshKey(s, env)
    ensures var o := UpdateNote(s, id, title, content, withImage, env);
      && WellFormed(o.state)
      && (o.response != Failed || !withImage ==> NoDangling(o.state))
      && (NoOrphans(s) && o.response != Failed ==> NoOrphans(o.state))
  {
    var o := UpdateNote(s, id, title, content, withImage, env);
    var key := RandomImageName(env.rnd);
    GeneratedKeyFits(env.rnd);
    if o.response.status == StatusOk {
      var n := o.state.rows[id];
      var previous := s.rows[id].imageUrl;
      assert o.state.rows == s.rows[id := n];
      forall j | j in o.state.rows
        ensures RowWellFormed(o.state, j)
      {
        if j != id {
          assert RowWellFormed(s, j);
        } else {
          assert RowWellFormed(s, id);
        }
      }
      forall a, b | a in o.state.rows && b in o.state.rows && a != b && o.state.rows[a].imageUrl.Some?
        ensures o.state.rows[a].imageUrl != o.state.rows[b].imageUrl
      {
        if withImage && (a == id || b == id) {
          assert s.rows[if a == id then b else a].imageUrl.Some? ==> s.rows[if a == id then b else a].imageUrl.value in s.blobs;
        }
      }
      forall j | j in o.state.rows && o.state.rows[j].imageUrl.Some?
        ensures o.state.rows[j].imageUrl.value in o.state.blobs
      {
        if j != id && withImage && Truthy(previous) {
          assert s.rows[j].imageUrl != previous;
        }
      }
      forall k | NoOrphans(s) && k in o.state.blobs
        ensures exists j :: j in o.state.rows && o.state.rows[j].imageUrl == Some(k)
      {
        if withImage && k == key {
          assert o.state.rows[id].imageUrl == Some(k);
        } else {
          var j :| j in s.rows && s.rows[j].imageUrl == Some(k);
          if j == id {
            assert withImage ==> Some(k) == previous && Truthy(previous);
            assert o.state.rows[id].imageUrl == Some(k);
          } else {
            assert o.state.rows[j].imageUrl == Some(k);
          }
        }
      }
    }
  }

  lemma DeletePreserves(s: State, id: int, env: Env)
    requires WellFormed(s) && NoDangling(s)
    ensures var o := DeleteNote(s, id, env);
      && WellFormed(o.state) && NoDangling(o.state)
      && (NoOrphans(s) && o.response != Failed ==> NoOrphans(o.state))
  {
    var o := DeleteNote(s, id, env);
    if id in s.rows && o.state != s {
      var previous := s.rows[id].imageUrl;
      assert o.state.rows == s.rows - {id};
      forall j | j in o.state.rows && o.state.rows[j].imageUrl.Some?
        ensures o.state.rows[j].imageUrl.value in o.state.blobs
      {
        assert s.rows[j].imageUrl != previous;
      }
      if NoOrphans(s) && o.response != Failed {
        forall k | k in o.state.blobs
          ensures exists j :: j in o.state.rows && o.state.rows[j].imageUrl == Some(k)
        {
          var j :| j in s.rows && s.rows[j].imageUrl == Some(k);
          assert RowWellFormed(s, j);
          assert j != id;
          assert o.state.rows[j].imageUrl == Some(k);
        }
      }
    }
  }

  /**
   The routes as written keep the invariant whenever a request completes
   without a 500; a failed list, get, create or delete still leaves no
   dangling key (at worst an orphaned object).
   */
  lemma HandlePreserves(s: State, req: Request, env: Env)
    requires Consistent(s) && FreshKey(s, env)
    ensures var o := Handle(s, req, env);
      && WellFormed(o.state)
      && (o.response != Failed ==> Consistent(o.state))
      && (!req.UpdateReq? ==> NoDangling(o.state))
  {
    match req
    case ListReq =>
    case GetReq(_) =>
    case CreateReq(title, content, withImage) => CreatePreserves(s, title, content, withImage, env);
    case UpdateReq(id, title, content, withImage) => UpdatePreserves(s, id, title, content, withImage, env);
    case DeleteReq(id) => DeletePreserves(s, id, env);
  }
}

=== FILE: image_name.dfy ===
/**
 Image keys. The routes name every uploaded image with `randomImageName`,
 which draws 16 random bytes and renders them as lower-case hexadecimal
 (server/routes/notes.js:16). The random source is not modelled: the bytes
 it produced are a parameter. `HexDecode` is a reference inverse used only
 to state that the encoding loses nothing.
 */
module ImageName {
  import opened Options
  import opened NoteModel

  newtype byte = x: int | 0 <= x < 256

  /** Default argument of `randomImageName`. */
  const KeyBytes := 16

  /** The bytes one call of `crypto.randomBytes(16)` yields. */
  type KeyDraw = rnd: seq<byte> | |rnd| == KeyBytes witness seq(KeyBytes, _ => 0 as byte)

  predicate IsHexChar(c: char)
  {
    '0' <= c <= '9' || 'a' <= c <= 'f'
  }

  /** The lower-case hexadecimal digit of a nibble. */
  function HexDigit(n: int): (c: char)
    requires 0 <= n < 16
    ensures IsHexChar(c)
  {
    if n < 10 then ('0' as int + n) as char else ('a' as int + n - 10) as char
  }

  /** The nibble a hexadecimal digit stands for. */
  function DigitValue(c: char): (n: int)
    requires IsHexChar(c)
    ensures 0 <= n < 16
    ensures HexDigit(n) == c
  {
    if c <= '9' then c as int - '0' as int else c as int - 'a' as int + 10
  }

  /** Node's `buffer.toString('hex')`: two digits per byte, high nibble first. */
  function HexEncode(bytes: seq<byte>): (s: string)
    ensures |s| == 2 * |bytes|
    ensures forall i :: 0 <= i < |s| ==> IsHexChar(s[i])
  {
    if bytes == [] then ""
    else [HexDigit(bytes[0] as int / 16), HexDigit(bytes[0] as int % 16)] + HexEncode(bytes[1..])
  }

  /** Reference inverse of `HexEncode`; fails on odd length or a non-digit. */
  function HexDecode(s: string): (r: Option<seq<byte>>)
    ensures r.Some? ==> |s| == 2 * |r.value|
    ensures r.Some? ==> forall i :: 0 <= i < |s| ==> IsHexChar(s[i])
  {
    if s == [] then Some([])
    else if |s| < 2 || !IsHexChar(s[0]) || !IsHexChar(s[1]) then None
    else
      match HexDecode(s[2..])
      case None => None
      case Some(rest) => Some([(DigitValue(s[0]) * 16 + DigitValue(s[1])) as byte] + rest)
  }

  lemma {:induction false} DecodeEncode(bytes: seq<byte>)
    ensures HexDecode(HexEncode(bytes)) == Some(bytes)
  {
    if bytes != [] {
      var b := bytes[0] as int;
      var s := HexEncode(bytes);
      assert s[2..] == HexEncode(bytes[1..]);
      DecodeEncode(bytes[1..]);
      assert DigitValue(HexDigit(b / 16)) == b / 16;
      assert DigitValue(HexDigit(b % 16)) == b % 16;
      assert [b as byte] + bytes[1..] == bytes;
    }
  }

  lemma {:induction false} EncodeDecode(s: string)
    requires HexDecode(s).Some?
    ensures HexEncode(HexDecode(s).value) == s
  {
    if s != [] {
      EncodeDecode(s[2..]);
      var hi, lo := DigitValue(s[0]), DigitValue(s[1]);
      var b := (hi * 16 + lo) as byte;
      assert (b as int) / 16 == hi && (b as int) % 16 == lo;
      assert s == [s[0], s[1]] + s[2..];
    }
  }

  /** Distinct random draws give distinct keys. */
  lemma EncodeInjective(a: seq<byte>, b: seq<byte>)
    requires HexEncode(a) == HexEncode(b)
    ensures a == b
  {
    DecodeEncode(a);
    DecodeEncode(b);
  }

  /** `randomImageName(bytes)` given the bytes `crypto.randomBytes` produced. */
  function RandomImageName(rnd: seq<byte>): (key: string)
    ensures |key| == 2 * |rnd|
    ensures HexDecode(key) == Some(rnd)
  {
    DecodeEncode(rnd);
    HexEncode(rnd)
  }

  /** Shape of every key `randomImageName()` can return: 32 lower-case hex digits. */
  predicate IsImageKey(k: string)
  {
    |k| == 2 * KeyBytes && forall i :: 0 <= i < |k| ==> IsHexChar(k[i])
  }

  /**
   Every generated key is an image key, and the `image_url` column stores
   it as it is: 32 hex digits fit `varchar(2048)` and hold no U+0000.
   */
  lemma GeneratedKeyFits(rnd: KeyDraw)
    ensures IsImageKey(RandomImageName(rnd))
    ensures Varchar(RandomImageName(rnd), ImageUrlMaxLength) == Some(RandomImageName(rnd))
    ensures StoredImage(Some(RandomImageName(rnd))) == Some(RandomImageName(rnd))
  {
    var key := RandomImageName(rnd);
    forall i | 0 <= i < |key|
      ensures key[i] != '\0'
    {
      assert IsHexChar(key[i]);
    }
  }
}

=== FILE: listing.dfy ===
/**
 The order of `Note.findAll({ order: [['created_at', 'DESC']] })`
 (server/routes/notes.js:33): newest first. Rows created at the same time
 may come back in either order; this model breaks such ties by the larger
 id, which is one of the orders the query may return.
 */
module Listing {
  import opened NoteModel

  /** Row `a` may be listed before row `b`. */
  predicate ListedBefore(rows: map<int, Note>, a: int, b: int)
    requires a in rows && b in rows
  {
    || rows[a].createdAt > rows[b].createdAt
    || (rows[a].createdAt == rows[b].createdAt && a >= b)
  }

  predicate IsNewest(rows: map<int, Note>, ks: set<int>, k: int)
    requires ks <= rows.Keys
  {
    k in ks && forall j :: j in ks ==> ListedBefore(rows, k, j)
  }

  lemma NonEmptyHasElement(ks: set<int>)
    requires ks != {}
    ensures exists x :: x in ks
  {
    if forall x :: x !in ks {
      assert false;
    }
  }

  lemma {:induction false} NewestExists(rows: map<int, Note>, ks: set<int>)
    requires ks <= rows.Keys && ks != {}
    ensures exists k :: IsNewest(rows, ks, k)
    decreases ks
  {
    NonEmptyHasElement(ks);
    var x :| x in ks;
    if ks == {x} {
      assert IsNewest(rows, ks, x);
    } else {
      NewestExists(rows, ks - {x});
      var m :| IsNewest(rows, ks - {x}, m);
      if ListedBefore(rows, x, m) {
        forall j | j in ks
          ensures ListedBefore(rows, x, j)
        {
          if j != x {
            assert j in ks - {x};
          }
        }
        assert IsNewest(rows, ks, x);
      } else {
        assert IsNewest(rows, ks, m);
      }
    }
  }

  /** The ids of `ks`, newest row first. */
  function NewestFirst(rows: map<int, Note>, ks: set<int>): (order: seq<int>)
    requires ks <= rows.Keys
    ensures |order| == |ks|
    ensures forall k :: k in order <==> k in ks
    ensures forall i, j :: 0 <= i < j < |order| ==> order[i] != order[j]
    ensures forall i, j :: 0 <= i < j < |order| ==> ListedBefore(rows, order[i], order[j])
    decreases ks
  {
    if ks == {} then []
    else
      NewestExists(rows, ks);
      var k :| IsNewest(rows, ks, k);
      [k] + NewestFirst(rows, ks - {k})
  }
}

=== FILE: note_model.dfy ===
/**
 The `Note` record of the `notes` table (server/models/note.js): an
 auto-incremented `integer` key, a non-null `varchar(255)` title, nullable
 `text` content, a nullable `varchar(2048)` image key, and the two
 timestamps Sequelize maintains. Time is a logical clock. What the
 columns accept is what Postgres accepts: see `Varchar`.
 */
module NoteModel {
  import opened Options

  const TitleMaxLength := 255
  const ImageUrlMaxLength := 2048

  /** Range of Postgres `integer`, the type of `note_id`. */
  const Int32Min := -0x8000_0000
  const Int32Max := 0x7fff_ffff

  predicate IsInt32(x: int)
  {
    Int32Min <= x <= Int32Max
  }

  datatype Note = Note(
    noteId: int,
    title: string,
    content: Option<string>,
    imageUrl: Option<string>,
    createdAt: int,
    updatedAt: int)

  /** Postgres text values cannot hold the character U+0000. */
  predicate NoNul(v: string)
  {
    forall i :: 0 <= i < |v| ==> v[i] != '\0'
  }

  /**
   What a `varchar(n)` column stores for `v`: `v` itself when it fits; `v`
   cut to `n` characters when everything past `n` is a space (Postgres
   truncates such a value instead of refusing it); nothing when anything
   else lies past `n` or `v` holds U+0000.
   */
  function Varchar(v: string, n: nat): (r: Option<string>)
    ensures r.Some? <==> NoNul(v) && forall i :: n <= i < |v| ==> v[i] == ' '
    ensures r.Some? ==> |r.value| == (if |v| <= n then |v| else n) && r.value <= v
    ensures r.Some? ==> forall i :: |r.value| <= i < |v| ==> v[i] == ' '
    ensures |v| <= n && NoNul(v) ==> r == Some(v)
  {
    if !NoNul(v) then None
    else if |v| <= n then Some(v)
    else if forall i :: n <= i < |v| ==> v[i] == ' ' then Some(v[..n])
    else None
  }

  /** An over-long value the column accepts is stored as exactly its first `n` characters. */
  lemma VarcharCutsToWidth(v: string, n: nat)
    requires n < |v| && Varchar(v, n).Some?
    ensures Varchar(v, n).value == v[..n]
    ensures Varchar("a   ", 2) == Some("a ")
  {
    var w := "a   ";
    assert NoNul(w) by {
      assert w[0] == 'a' && w[1] == ' ' && w[2] == ' ' && w[3] == ' ';
    }
    assert w[..2] == "a ";
  }

  /**
   Whether an insert or save with these values goes through: the title is
   not null (Sequelize's `allowNull: false`) and every value is one its
   column accepts.
   */
  predicate Storable(title: Option<string>, content: Option<string>, imageUrl: Option<string>)
  {
    && title.Some? && Varchar(title.value, TitleMaxLength).Some?
    && (content.Some? ==> NoNul(content.value))
    && (imageUrl.Some? ==> Varchar(imageUrl.value, ImageUrlMaxLength).Some?)
  }

  /** The stored `image_url` for an accepted value. */
  function StoredImage(imageUrl: Option<string>): (r: Option<string>)
    requires imageUrl.Some? ==> Varchar(imageUrl.value, ImageUrlMaxLength).Some?
    ensures r.Some? <==> imageUrl.Some?
    ensures r.Some? ==> |r.value| <= ImageUrlMaxLength && NoNul(r.value)
  {
    if imageUrl.Some? then Varchar(imageUrl.value, ImageUrlMaxLength) else None
  }

  /** JavaScript truthiness of a nullable string column: null and "" are falsy. */
  predicate Truthy(u: Option<string>)
  {
    u.Some? && u.value != ""
  }

  /** A row as the table can hold it. */
  predicate ValidNote(n: Note)
  {
    && |n.title| <= TitleMaxLength && NoNul(n.title)
    && (n.content.Some? ==> NoNul(n.content.value))
    && (n.imageUrl.Some? ==> |n.imageUrl.value| <= ImageUrlMaxLength && NoNul(n.imageUrl.value))
  }

  /** Writing back a stored row's own values stores them unchanged. */
  lemma StoredRowStoresAsIs(n: Note)
    requires ValidNote(n)
    ensures Storable(Some(n.title), n.content, n.imageUrl)
    ensures Varchar(n.title, TitleMaxLength) == Some(n.title)
    ensures StoredImage(n.imageUrl) == n.imageUrl
  {
  }

  /** `Note.create`: the new row, stamped `created_at = updated_at = now`. */
  function NewRow(id: int, title: Option<string>, content: Option<string>, imageUrl: Option<string>, now: int): (n: Note)
    requires Storable(title, content, imageUrl)
    ensures ValidNote(n)
    ensures n.noteId == id && n.createdAt == now && n.updatedAt == now
    ensures n.title <= title.value && Some(n.title) == Varchar(title.value, TitleMaxLength)
    ensures n.content == content && n.imageUrl == StoredImage(imageUrl)
  {
    Note(id, Varchar(title.value, TitleMaxLength).value, content, StoredImage(imageUrl), now, now)
  }

  /** `note.save()` after assigning title, content and image: the key and `created_at` stay. */
  function Revised(n: Note, title: Option<string>, content: Option<string>, imageUrl: Option<string>, now: int): (r: Note)
    requires Storable(title, content, imageUrl)
    ensures ValidNote(r)
    ensures r.noteId == n.noteId && r.createdAt == n.createdAt && r.updatedAt == now
    ensures r.title <= title.value && Some(r.title) == Varchar(title.value, TitleMaxLength)
    ensures r.content == content && r.imageUrl == StoredImage(imageUrl)
  {
    n.(title := Varchar(title.value, TitleMaxLength).value, content := content,
       imageUrl := StoredImage(imageUrl), updatedAt := now)
  }
}

=== FILE: note_routes.dfy ===
/**
 The five note routes of server/routes/notes.js, each one sequential
 transition of the stores. The outside world enters through `Env`: which
 external calls fail, the bytes `crypto.randomBytes` returned, and the
 presigner (`getSignedUrl`), which may fail. Any failure inside a handler's
 `try` block ends the request with 500 and keeps whatever the calls before
 it already did.
 */
module NoteRoutes {
  import opened Options
  import opened ImageName
  import opened NoteModel
  import opened NoteStore
  import opened Listing

  const StatusOk := 200
  const StatusCreated := 201
  const StatusNotFound := 404
  const StatusServerError := 500

  /** A note as sent back: the row plus `image_display_url` when one was attached. */
  datatype NoteView = NoteView(note: Note, displayUrl: Option<string>)

  datatype Body =
    | NoteList(views: seq<NoteView>)
    | OneNote(view: NoteView)
    | Message(msg: string)
    | Text(text: string)

  datatype Response = Response(status: int, body: Body)

  const NotFound := Response(StatusNotFound, Message("Note not found"))
  const Deleted := Response(StatusOk, Message("Note deleted"))
  const Failed := Response(StatusServerError, Text("Server Error"))

  /** Which external calls fail if the handler reaches them. */
  datatype Faults = Faults(lookupFails: bool, writeFails: bool, putFails: bool, deleteFails: bool)

  const NoFaults := Faults(false, false, false, false)

  datatype Env = Env(faults: Faults, rnd: KeyDraw, sign: string -> Option<string>)

  /** New stores, the reply, and the side-effecting calls issued, in order. */
  datatype Outcome = Outcome(state: State, response: Response, trace: seq<Step>)

  /** Attach a signed display URL when the stored `image_url` is truthy; `None` when signing failed. */
  function Present(n: Note, sign: string -> Option<string>): (v: Option<NoteView>)
    ensures v.Some? <==> !Truthy(n.imageUrl) || sign(n.imageUrl.value).Some?
    ensures v.Some? ==> v.value.note == n
    ensures v.Some? ==> (v.value.displayUrl.Some? <==> Truthy(n.imageUrl))
    ensures v.Some? && Truthy(n.imageUrl) ==> v.value.displayUrl == sign(n.imageUrl.value)
  {
    if Truthy(n.imageUrl) then
      match sign(n.imageUrl.value)
      case None => None
      case Some(url) => Some(NoteView(n, Some(url)))
    else Some(NoteView(n, None))
  }

  /** The loop of GET `/`: present every listed row, giving up at the first signing failure. */
  function PresentAll(rows: map<int, Note>, order: seq<int>, sign: string -> Option<string>): (r: Option<seq<NoteView>>)
    requires forall i :: 0 <= i < |order| ==> order[i] in rows
    ensures r.Some? <==> forall i :: 0 <= i < |order| ==> Present(rows[order[i]], sign).Some?
    ensures r.Some? ==> |r.value| == |order|
    ensures r.Some? ==> forall i :: 0 <= i < |order| ==> Some(r.value[i]) == Present(rows[order[i]], sign)
  {
    if order == [] then Some([])
    else
      match Present(rows[order[0]], sign)
      case None => None
      case Some(v) =>
        match PresentAll(rows, order[1..], sign)
        case None => None
        case Some(vs) => Some([v] + vs)
  }

  /** Every row can be signed: the condition under which the GET `/` loop finishes. */
  predicate AllSignable(rows: map<int, Note>, sign: string -> Option<string>)
  {
    forall id :: id in rows && Truthy(rows[id].imageUrl) ==> sign(rows[id].imageUrl.value).Some?
  }

  /**
   `views` shows the rows under `ids` in that order: `ids` holds every key
   of `rows` exactly once, creation times do not increase along the list,
   and each view carries the signed URL of its row's key when it has one
   and none otherwise.
   */
  ghost predicate ListsInOrder(rows: map<int, Note>, ids: seq<int>, views: seq<NoteView>, sign: string -> Option<string>)
  {
    && |ids| == |rows| && |views| == |ids|
    && (forall k :: k in ids <==> k in rows)
    && (forall i, j :: 0 <= i < j < |ids| ==> ids[i] != ids[j])
    && (forall i :: 0 <= i < |ids| ==> ids[i] in rows && views[i].note == rows[ids[i]])
    && (forall i, j :: 0 <= i < j < |views| ==> views[i].note.createdAt >= views[j].note.createdAt)
    && (forall i :: 0 <= i < |views| ==>
          views[i].displayUrl == (if Truthy(views[i].note.imageUrl) then sign(views[i].note.imageUrl.value) else None))
  }

  /** `views` lists every row of `rows` once per key, newest first, with the signed URL of each image. */
  ghost predicate ListsNewestFirst(rows: map<int, Note>, views: seq<NoteView>, sign: string -> Option<string>)
  {
    exists ids :: ListsInOrder(rows, ids, views, sign)
  }

  lemma SignableIffPresented(rows: map<int, Note>, order: seq<int>, sign: string -> Option<string>)
    requires forall k :: k in order <==> k in rows
    requires forall i :: 0 <= i < |order| ==> order[i] in rows
    ensures PresentAll(rows, order, sign).Some? <==> AllSignable(rows, sign)
  {
    if PresentAll(rows, order, sign).Some? {
      forall id | id in rows && Truthy(rows[id].imageUrl)
        ensures sign(rows[id].imageUrl.value).Some?
      {
        var i :| 0 <= i < |order| && order[i] == id;
        assert Present(rows[order[i]], sign).Some?;
      }
    } else {
      var i :| 0 <= i < |order| && Present(rows[order[i]], sign).None?;
      var id := order[i];
      assert id in rows && Truthy(rows[id].imageUrl) && sign(rows[id].imageUrl.value).None?;
    }
  }

  /** The i-th view presents the i-th listed row, with its signed URL. */
  lemma PresentedPointwise(rows: map<int, Note>, order: seq<int>, sign: string -> Option<string>)
    requires forall i :: 0 <= i < |order| ==> order[i] in rows
    requires PresentAll(rows, order, sign).Some?
    ensures var views := PresentAll(rows, order, sign).value;
      && |views| == |order|
      && forall i :: 0 <= i < |order| ==>
           && views[i].note == rows[order[i]]
           && views[i].displayUrl == (if Truthy(views[i].note.imageUrl) then sign(views[i].note.imageUrl.value) else None)
  {
    var views := PresentAll(rows, order, sign).value;
    forall i | 0 <= i < |order|
      ensures views[i].note == rows[order[i]]
      ensures views[i].displayUrl == (if Truthy(views[i].note.imageUrl) then sign(views[i].note.imageUrl.value) else None)
    {
      assert Some(views[i]) == Present(rows[order[i]], sign);
    }
  }

  /** Views in `NewestFirst` order have non-increasing creation times. */
  lemma ViewsNewestFirst(rows: map<int, Note>, order: seq<int>, views: seq<NoteView>)
    requires |views| == |order|
    requires forall i :: 0 <= i < |order| ==> order[i] in rows && views[i].note == rows[order[i]]
    requires forall i, j :: 0 <= i < j < |order| ==> ListedBefore(rows, order[i], order[j])
    ensures forall i, j :: 0 <= i < j < |views| ==> views[i].note.createdAt >= views[j].note.createdAt
  {
    forall i, j | 0 <= i < j < |views|
      ensures views[i].note.createdAt >= views[j].note.createdAt
    {
      assert ListedBefore(rows, order[i], order[j]);
    }
  }

  /** Views that present the `NewestFirst` enumeration of the keys list the rows in that order. */
  lemma ViewsListNewestFirst(rows: map<int, Note>, order: seq<int>, views: seq<NoteView>, sign: string -> Option<string>)
    requires |order| == |rows| && |views| == |order|
    requires forall k :: k in order <==> k in rows
    requires forall i, j :: 0 <= i < j < |order| ==> order[i] != order[j]
    requires forall i :: 0 <= i < |order| ==>
      && order[i] in rows
      && views[i].note == rows[order[i]]
      && views[i].displayUrl == (if Truthy(views[i].note.imageUrl) then sign(views[i].note.imageUrl.value) else None)
    requires forall i, j :: 0 <= i < j < |order| ==> ListedBefore(rows, order[i], order[j])
    ensures ListsInOrder(rows, order, views, sign)
  {
    ViewsNewestFirst(rows, order, views);
  }

  /** GET `/` */
  function ListNotes(s: State, env: Env): (o: Outcome)
    ensures o.state == s && o.trace == []
    ensures o.response.status == StatusOk || o.response == Failed
    ensures o.response.status == StatusOk <==> !env.faults.lookupFails && AllSignable(s.rows, env.sign)
    ensures o.response.status == StatusOk ==>
      o.response.body.NoteList? && ListsNewestFirst(s.rows, o.response.body.views, env.sign)
  {
    if env.faults.lookupFails then Outcome(s, Failed, [])
    else
      var order := NewestFirst(s.rows, s.rows.Keys);
      SignableIffPresented(s.rows, order, env.sign);
      if PresentAll(s.rows, order, env.sign).Some? then
        var views := PresentAll(s.rows, order, env.sign).value;
        PresentedPointwise(s.rows, order, env.sign);
        ViewsListNewestFirst(s.rows, order, views, env.sign);
        Outcome(s, Response(StatusOk, NoteList(views)), [])
      else Outcome(s, Failed, [])
  }

  /**
   `Note.findByPk(id)` fails outright when the lookup fails or the id lies
   outside the `integer` range of `note_id` (Postgres refuses the comparison).
   */
  predicate LookupFails(id: int, env: Env)
  {
    env.faults.lookupFails || !IsInt32(id)
  }

  /** GET `/:id` */
  function GetNote(s: State, id: int, env: Env): (o: Outcome)
    ensures o.state == s && o.trace == []
    ensures o.response.status == StatusOk || o.response == NotFound || o.response == Failed
    ensures o.response == NotFound <==> !LookupFails(id, env) && id !in s.rows
    ensures o.response.status == StatusOk <==>
      !LookupFails(id, env) && id in s.rows && Present(s.rows[id], env.sign).Some?
    ensures o.response.status == StatusOk ==>
      && id in s.rows
      && o.response.body.OneNote?
      && o.response.body.view.note == s.rows[id]
      && (o.response.body.view.displayUrl.Some? <==> Truthy(s.rows[id].imageUrl))
      && o.response.body.view.displayUrl ==
           (if Truthy(s.rows[id].imageUrl) then env.sign(s.rows[id].imageUrl.value) else None)
  {
    if LookupFails(id, env) then Outcome(s, Failed, [])
    else if id !in s.rows then Outcome(s, NotFound, [])
    else
      match Present(s.rows[id], env.sign)
      case None => Outcome(s, Failed, [])
      case Some(v) => Outcome(s, Response(StatusOk, OneNote(v)), [])
  }

  /**
   `Note.create` with the next id of the sequence, as the last step of POST
   `/`. It goes through when the write does not fail, the columns accept the
   values and the sequence is still inside the `integer` range.
   */
  function Insert(s: State, title: Option<string>, content: Option<string>, imageUrl: Option<string>,
                  faults: Faults, trace: seq<Step>): (o: Outcome)
    ensures o.state.blobs == s.blobs
    ensures o.trace == trace + [Step(InsertRow(title, content, imageUrl), o.response.status == StatusCreated)]
    ensures o.response.status == StatusCreated <==>
      !faults.writeFails && Storable(title, content, imageUrl) && IsInt32(s.nextId)
    ensures o.response.status != StatusCreated ==> o.response == Failed && o.state == s
    ensures o.response.status == StatusCreated ==>
      && Storable(title, content, imageUrl)
      && o.response.body.OneNote?
      && o.response.body.view.displayUrl.None?
      && var n := o.response.body.view.note;
      && n.noteId == s.nextId && n.createdAt == s.clock && n.updatedAt == s.clock
      && Some(n.title) == Varchar(title.value, TitleMaxLength)
      && n.content == content && n.imageUrl == StoredImage(imageUrl)
      && o.state.rows == s.rows[s.nextId := n]
      && o.state.nextId == s.nextId + 1
  {
    var call := InsertRow(title, content, imageUrl);
    if faults.writeFails || !Storable(title, content, imageUrl) || !IsInt32(s.nextId) then
      Outcome(s, Failed, trace + [Step(call, false)])
    else
      var row := NewRow(s.nextId, title, content, imageUrl, s.clock);
      Outcome(
        s.(rows := s.rows[s.nextId := row], nextId := s.nextId + 1, clock := s.clock + 1),
        Response(StatusCreated, OneNote(NoteView(row, None))),
        trace + [Step(call, true)])
  }

  /** POST `/`: with an image, put it under a fresh key first, then insert the row naming that key. */
  function CreateNote(s: State, title: Option<string>, content: Option<string>, withImage: bool, env: Env): (o: Outcome)
    ensures o.response.status == StatusCreated || o.response == Failed
    ensures o.state.rows == s.rows || o.response.status == StatusCreated
    ensures !withImage ==> o.state.blobs == s.blobs && NoObjectStoreCall(o.trace)
    ensures withImage && env.faults.putFails ==> o.state == s && o.response == Failed
    ensures withImage && !env.faults.putFails ==> o.state.blobs == s.blobs + {RandomImageName(env.rnd)}
    ensures o.response.status == StatusCreated <==>
      !(withImage && env.faults.putFails) && !env.faults.writeFails
      && Storable(title, content, None) && IsInt32(s.nextId)
    ensures o.response.status == StatusCreated ==>
      && title.Some?
      && o.response.body.OneNote?
      && var n := o.response.body.view.note;
      && n.noteId == s.nextId
      && Some(n.title) == Varchar(title.value, TitleMaxLength) && n.content == content
      && n.imageUrl == (if withImage then Some(RandomImageName(env.rnd)) else None)
      && o.state.rows == s.rows[s.nextId := n]
  {
    var key := RandomImageName(env.rnd);
    GeneratedKeyFits(env.rnd);
    if !withImage then Insert(s, title, content, None, env.faults, [])
    else if env.faults.putFails then Outcome(s, Failed, [Step(PutObject(key), false)])
    else Insert(s.(blobs := s.blobs + {key}), title, content, Some(key), env.faults, [Step(PutObject(key), true)])
  }

  /** `note.save()` after assigning title, content and image, as the last step of PUT `/:id`. */
  function Save(s: State, id: int, title: Option<string>, content: Option<string>, imageUrl: Option<string>,
                faults: Faults, trace: seq<Step>): (o: Outcome)
    requires id in s.rows
    ensures o.state.blobs == s.blobs && o.state.nextId == s.nextId
    ensures o.trace == trace + [Step(SaveRow(id, title, content, imageUrl), o.response.status == StatusOk)]
    ensures o.response.status == StatusOk <==> !faults.writeFails && Storable(title, content, imageUrl)
    ensures o.response.status != StatusOk ==> o.response == Failed && o.state == s
    ensures o.response.status == StatusOk ==>
      && Storable(title, content, imageUrl)
      && id in o.state.rows
      && var n := o.state.rows[id];
      && n.noteId == s.rows[id].noteId && n.createdAt == s.rows[id].createdAt && n.updatedAt == s.clock
      && Some(n.title) == Varchar(title.value, TitleMaxLength)
      && n.content == content && n.imageUrl == StoredImage(imageUrl)
      && o.state.rows == s.rows[id := n]
      // the reply is the instance as assigned, not the row read back
      && o.response.body == OneNote(NoteView(n.(title := title.value, imageUrl := imageUrl), None))
    ensures o.response.status == StatusOk && |title.value| <= TitleMaxLength
            && (imageUrl.Some? ==> |imageUrl.value| <= ImageUrlMaxLength) ==>
      o.response.body.view.note == o.state.rows[id]
  {
    var call := SaveRow(id, title, content, imageUrl);
    if faults.writeFails || !Storable(title, content, imageUrl) then
      Outcome(s, Failed, trace + [Step(call, false)])
    else
      var echoed := s.rows[id].(title := title.value, content := content, imageUrl := imageUrl, updatedAt := s.clock);
      Outcome(
        s.(rows := s.rows[id := Revised(s.rows[id], title, content, imageUrl, s.clock)], clock := s.clock + 1),
        Response(StatusOk, OneNote(NoteView(echoed, None))),
        trace + [Step(call, true)])
  }

  /**
   PUT `/:id`, in the code's order: put the new image, delete the previous one
   (only if the row had one), then save the row naming the new key.
   */
  function UpdateNote(s: State, id: int, title: Option<string>, content: Option<string>, withImage: bool, env: Env): (o: Outcome)
    ensures o.state.nextId == s.nextId
    ensures o.response.status == StatusOk || o.response == NotFound || o.response == Failed
    ensures o.response == NotFound <==> !LookupFails(id, env) && id !in s.rows
    ensures o.response == NotFound || LookupFails(id, env) ==> o.state == s && o.trace == []
    ensures o.state.rows == s.rows || o.response.status == StatusOk
    ensures !withImage ==> o.state.blobs == s.blobs && NoObjectStoreCall(o.trace)
    ensures o.response.status == StatusOk <==>
      && !LookupFails(id, env) && id in s.rows && !env.faults.writeFails
      && (withImage ==> !env.faults.putFails && (Truthy(s.rows[id].imageUrl) ==> !env.faults.deleteFails))
      && Storable(title, content, if withImage then None else s.rows[id].imageUrl)
    ensures o.response.status == StatusOk ==>
      && id in s.rows && id in o.state.rows
      && Storable(title, content, if withImage then None else s.rows[id].imageUrl)
      && var n := o.state.rows[id];
      && n.noteId == s.rows[id].noteId && n.createdAt == s.rows[id].createdAt
      && Some(n.title) == Varchar(title.value, TitleMaxLength) && n.content == content
      && n.imageUrl == (if withImage then Some(RandomImageName(env.rnd)) else StoredImage(s.rows[id].imageUrl))
      && o.state.rows == s.rows[id := n]
      && o.response.body == OneNote(NoteView(
           n.(title := title.value,
              imageUrl := if withImage then Some(RandomImageName(env.rnd)) else s.rows[id].imageUrl), None))
    // the put of the new image failed: nothing was changed
    ensures withImage && !LookupFails(id, env) && id in s.rows && env.faults.putFails ==>
      o.state == s && o.response == Failed
    // the delete of the previous image failed: the row stands, the new image is orphaned
    ensures withImage && !LookupFails(id, env) && id in s.rows && !env.faults.putFails
            && Truthy(s.rows[id].imageUrl) && env.faults.deleteFails ==>
      && o.response == Failed
      && o.state.rows == s.rows
      && o.state.blobs == s.blobs + {RandomImageName(env.rnd)}
    // both object calls went through, whether or not the save then did
    ensures withImage && !LookupFails(id, env) && id in s.rows && !env.faults.putFails
            && (Truthy(s.rows[id].imageUrl) ==> !env.faults.deleteFails) ==>
      o.state.blobs == s.blobs + {RandomImageName(env.rnd)}
                       - (if Truthy(s.rows[id].imageUrl) then {s.rows[id].imageUrl.value} else {})
  {
    if LookupFails(id, env) then Outcome(s, Failed, [])
    else if id !in s.rows then Outcome(s, NotFound, [])
    else
      var previous := s.rows[id].imageUrl;
      if !withImage then Save(s, id, title, content, previous, env.faults, [])
      else
        var key := RandomImageName(env.rnd);
        GeneratedKeyFits(env.rnd);
        if env.faults.putFails then Outcome(s, Failed, [Step(PutObject(key), false)])
        else
          var s1 := s.(blobs := s.blobs + {key});
          var put := [Step(PutObject(key), true)];
          if !Truthy(previous) then Save(s1, id, title, content, Some(key), env.faults, put)
          else if env.faults.deleteFails then Outcome(s1, Failed, put + [Step(DeleteObject(previous.value), false)])
          else
            Save(s1.(blobs := s1.blobs - {previous.value}), id, title, content, Some(key), env.faults,
                 put + [Step(DeleteObject(previous.value), true)])
  }

  /** DELETE `/:id`: destroy the row first, then delete its image if it had one. */
  function DeleteNote(s: State, id: int, env: Env): (o: Outcome)
    ensures o.state.nextId == s.nextId && o.state.clock == s.clock
    ensures o.response == Deleted || o.response == NotFound || o.response == Failed
    ensures o.response == NotFound <==> !LookupFails(id, env) && id !in s.rows
    ensures o.response == NotFound || LookupFails(id, env) ==> o.state == s && o.trace == []
    ensures id in s.rows && !Truthy(s.rows[id].imageUrl) ==> o.state.blobs == s.blobs && NoObjectStoreCall(o.trace)
    ensures id in s.rows && env.faults.writeFails ==> o.state == s && o.response == Failed
    ensures o.response == Deleted ==>
      && id in s.rows
      && o.state.rows == s.rows - {id}
      && o.state.blobs == s.blobs - (if Truthy(s.rows[id].imageUrl) then {s.rows[id].imageUrl.value} else {})
    ensures o.response == Deleted <==>
      !LookupFails(id, env) && id in s.rows && !env.faults.writeFails
      && (Truthy(s.rows[id].imageUrl) ==> !env.faults.deleteFails)
    // the row is gone but the delete of its image failed: the image stays
    ensures !LookupFails(id, env) && id in s.rows && !env.faults.writeFails
            && Truthy(s.rows[id].imageUrl) && env.faults.deleteFails ==>
      && o.response == Failed
      && o.state.rows == s.rows - {id}
      && o.state.blobs == s.blobs
  {
    if LookupFails(id, env) then Outcome(s, Failed, [])
    else if id !in s.rows then Outcome(s, NotFound, [])
    else
      var previous := s.rows[id].imageUrl;
      if env.faults.writeFails then Outcome(s, Failed, [Step(DestroyRow(id), false)])
      else
        var s1 := s.(rows := s.rows - {id});
        var destroy := [Step(DestroyRow(id), true)];
        if !Truthy(previous) then Outcome(s1, Deleted, destroy)
        else if env.faults.deleteFails then Outcome(s1, Failed, destroy + [Step(DeleteObject(previous.value), false)])
        else Outcome(s1.(blobs := s1.blobs - {previous.value}), Deleted, destroy + [Step(DeleteObject(previous.value), true)])
  }

  /** One HTTP request to the router; the path id is already an integer. */
  datatype Request =
    | ListReq
    | GetReq(id: int)
    | CreateReq(title: Option<string>, content: Option<string>, withImage: bool)
    | UpdateReq(id: int, title: Option<string>, content: Option<string>, withImage: bool)
    | DeleteReq(id: int)

  function Handle(s: State, req: Request, env: Env): Outcome
  {
    match req
    case ListReq => ListNotes(s, env)
    case GetReq(id) => GetNote(s, id, env)
    case CreateReq(title, content, withImage) => CreateNote(s, title, content, withImage, env)
    case UpdateReq(id, title, content, withImage) => UpdateNote(s, id, title, content, withImage, env)
    case DeleteReq(id) => DeleteNote(s, id, env)
  }
}

=== FILE: note_store.dfy ===
/**
 The two external stores as one abstract state: the `notes` table as a map
 from `note_id` to row, the S3 bucket as the set of keys it holds, the
 table's id sequence and a logical clock for the timestamps. Each side
 effect a route performs is an `Effect`; `Apply` says what it does to the
 state when it succeeds.
 */
module NoteStore {
  import opened Options
  import opened NoteModel

  datatype State = State(rows: map<int, Note>, blobs: set<string>, nextId: int, clock: int)

  /** An empty table whose sequence starts at 1, and an empty bucket. */
  function Init(): State
  {
    State(map[], {}, 1, 0)
  }

  datatype Effect =
    | PutObject(key: string)
    | DeleteObject(key: string)
    | InsertRow(title: Option<string>, content: Option<string>, imageUrl: Option<string>)
    | SaveRow(id: int, title: Option<string>, content: Option<string>, imageUrl: Option<string>)
    | DestroyRow(id: int)

  /** A side-effecting call as issued, and whether it succeeded. */
  datatype Step = Step(effect: Effect, ok: bool)

  predicate IsObjectStoreCall(e: Effect)
  {
    e.PutObject? || e.DeleteObject?
  }

  /** No S3 put or delete was issued. */
  predicate NoObjectStoreCall(trace: seq<Step>)
  {
    forall i :: 0 <= i < |trace| ==> !IsObjectStoreCall(trace[i].effect)
  }

  /**
   What one successful call does to the stores. Rows are written with the
   values as the columns store them (`NewRow`, `Revised`); a call with
   values the table refuses, or an insert once the id sequence has left
   the `integer` range, cannot succeed and so changes nothing. Deleting an
   absent key is a no-op, as in S3.
   */
  function Apply(s: State, e: Effect): State
  {
    match e
    case PutObject(k) => s.(blobs := s.blobs + {k})
    case DeleteObject(k) => s.(blobs := s.blobs - {k})
    case InsertRow(title, content, imageUrl) =>
      if Storable(title, content, imageUrl) && IsInt32(s.nextId) then
        s.(rows := s.rows[s.nextId := NewRow(s.nextId, title, content, imageUrl, s.clock)],
           nextId := s.nextId + 1, clock := s.clock + 1)
      else s
    case SaveRow(id, title, content, imageUrl) =>
      if id in s.rows && Storable(title, content, imageUrl) then
        s.(rows := s.rows[id := Revised(s.rows[id], title, content, imageUrl, s.clock)], clock := s.clock + 1)
      else s
    case DestroyRow(id) => s.(rows := s.rows - {id})
  }

  /** One issued call: a failed call changes nothing. */
  function Perform(s: State, step: Step): State
  {
    if step.ok then Apply(s, step.effect) else s
  }

  /** The stores after a trace of calls, performed first to last. */
  function Replay(s: State, trace: seq<Step>): State
    decreases |trace|
  {
    if trace == [] then s else Replay(Perform(s, trace[0]), trace[1..])
  }

  lemma {:induction false} ReplaySnoc(s: State, trace: seq<Step>, step: Step)
    ensures Replay(s, trace + [step]) == Perform(Replay(s, trace), step)
    decreases |trace|
  {
    if trace == [] {
      assert [step][1..] == [];
    } else {
      assert (trace + [step])[1..] == trace[1..] + [step];
      ReplaySnoc(Perform(s, trace[0]), trace[1..], step);
    }
  }
}

=== FILE: options.dfy ===
/** Optional values: the model's stand-in for JavaScript's null / undefined. */
module Options {

  datatype Option<+T> = None | Some(value: T)
}

=== FILE: route_properties.dfy ===
/**
 Properties that relate the routes to each other and to the store calls
 they issue: what a later GET sees after a create, update or delete; the
 order of the S3 and table calls; and that the state each route leaves is
 exactly what its successful calls do.
 */
module RouteProperties {
  import opened Options
  import opened ImageName
  import opened NoteModel
  import opened NoteStore
  import opened NoteRoutes
  import opened UpdateFix

  /** A GET right after a successful POST sees the posted title, content and image. */
  lemma CreateThenGet(s: State, title: Option<string>, content: Option<string>, withImage: bool, env: Env, later: Env)
    requires !later.faults.lookupFails
    ensures var o := CreateNote(s, title, content, withImage, env);
      o.response.status == StatusCreated ==>
        var g := GetNote(o.state, s.nextId, later);
        && (g.response.status == StatusOk <==> !withImage || later.sign(RandomImageName(env.rnd)).Some?)
        && (g.response.status == StatusOk ==>
              && g.response.body.view.note == o.response.body.view.note
              && Some(g.response.body.view.note.title) == Varchar(title.value, TitleMaxLength)
              && g.response.body.view.note.content == content
              && g.response.body.view.displayUrl ==
                   (if withImage then later.sign(RandomImageName(env.rnd)) else None))
  {
  }

  /** A GET right after a successful PUT sees the new title and content; the image changes only with a new upload. */
  lemma UpdateThenGet(s: State, id: int, title: Option<string>, content: Option<string>, withImage: bool, env: Env, later: Env)
    requires !later.faults.lookupFails
    ensures var o := UpdateNote(s, id, title, content, withImage, env);
      o.response.status == StatusOk ==>
        var g := GetNote(o.state, id, later);
        var image := if withImage then Some(RandomImageName(env.rnd)) else StoredImage(s.rows[id].imageUrl);
        && (g.response.status == StatusOk <==> !Truthy(image) || later.sign(image.value).Some?)
        && (g.response.status == StatusOk ==>
              && Some(g.response.body.view.note.title) == Varchar(title.value, TitleMaxLength)
              && g.response.body.view.note.content == content
              && g.response.body.view.note.imageUrl == image
              && g.response.body.view.note.noteId == s.rows[id].noteId
              && g.response.body.view.note.createdAt == s.rows[id].createdAt)
  {
  }

  /** After a successful DELETE the note is gone, its image is gone, and no other row changed. */
  lemma DeleteThenGet(s: State, id: int, env: Env, later: Env)
    requires !later.faults.lookupFails
    ensures var o := DeleteNote(s, id, env);
      o.response == Deleted ==>
        && GetNote(o.state, id, later).response == NotFound
        && (Truthy(s.rows[id].imageUrl) ==> s.rows[id].imageUrl.value !in o.state.blobs)
        && (forall j :: j in s.rows && j != id ==> j in o.state.rows && o.state.rows[j] == s.rows[j])
  {
  }

  /** POST `/`: the image is put before the row is inserted, and a failed put inserts nothing. */
  lemma CreateCallOrder(s: State, title: Option<string>, content: Option<string>, withImage: bool, env: Env)
    ensures var o := CreateNote(s, title, content, withImage, env);
      && (withImage ==>
            && |o.trace| >= 1
            && o.trace[0].effect == PutObject(RandomImageName(env.rnd))
            && (!o.trace[0].ok ==> |o.trace| == 1)
            && (forall i :: 1 <= i < |o.trace| ==> o.trace[i].effect.InsertRow?))
      && (!withImage ==> |o.trace| == 1 && o.trace[0].effect.InsertRow?)
  {
  }

  /**
   PUT `/:id` with an image, as written: put the new key, delete the old
   key only if the row had one, and only then save.
   */
  lemma UpdateCallOrder(s: State, id: int, title: Option<string>, content: Option<string>, env: Env)
    ensures var o := UpdateNote(s, id, title, content, true, env);
      o.response.status == StatusOk ==>
        var previous := s.rows[id].imageUrl;
        o.trace ==
          [Step(PutObject(RandomImageName(env.rnd)), true)]
          + (if Truthy(previous) then [Step(DeleteObject(previous.value), true)] else [])
          + [Step(SaveRow(id, title, content, Some(RandomImageName(env.rnd))), true)]
  {
  }

  /** The corrected PUT `/:id` saves the row before it deletes the old key. */
  lemma FixedUpdateCallOrder(s: State, id: int, title: Option<string>, content: Option<string>, env: Env)
    ensures var o := UpdateNoteFixed(s, id, title, content, true, env);
      o.response.status == StatusOk ==>
        var previous := s.rows[id].imageUrl;
        o.trace ==
          [Step(PutObject(RandomImageName(env.rnd)), true),
           Step(SaveRow(id, title, content, Some(RandomImageName(env.rnd))), true)]
          + (if Truthy(previous) then [Step(DeleteObject(previous.value), true)] else [])
  {
  }

  /** DELETE `/:id`: the row is destroyed first; the object is deleted afterwards, exactly when the row had an image. */
  lemma DeleteCallOrder(s: State, id: int, env: Env)
    ensures var o := DeleteNote(s, id, env);
      o.response == Deleted ==>
        var previous := s.rows[id].imageUrl;
        o.trace ==
          [Step(DestroyRow(id), true)]
          + (if Truthy(previous) then [Step(DeleteObject(previous.value), true)] else [])
  {
  }

  /** A route stops at its first failing call, and that failure is what makes it answer 500. */
  lemma StopsAtFirstFailure(s: State, req: Request, env: Env)
    ensures var o := Handle(s, req, env);
      forall i :: 0 <= i < |o.trace| && !o.trace[i].ok ==> i == |o.trace| - 1 && o.response == Failed
  {
  }

  /** The same holds for the corrected router. */
  lemma FixedStopsAtFirstFailure(s: State, req: Request, env: Env)
    ensures var o := HandleFixed(s, req, env);
      forall i :: 0 <= i < |o.trace| && !o.trace[i].ok ==> i == |o.trace| - 1 && o.response == Failed
  {
  }

  lemma InsertFollowsTrace(s0: State, s: State, title: Option<string>, content: Option<string>,
                           imageUrl: Option<string>, faults: Faults, trace: seq<Step>)
    requires s == Replay(s0, trace)
    ensures var o := Insert(s, title, content, imageUrl, faults, trace);
      o.state == Replay(s0, o.trace)
  {
    var o := Insert(s, title, content, imageUrl, faults, trace);
    ReplaySnoc(s0, trace, o.trace[|o.trace| - 1]);
    assert o.trace == trace + [o.trace[|o.trace| - 1]];
  }

  lemma SaveFollowsTrace(s0: State, s: State, id: int, title: Option<string>, content: Option<string>,
                         imageUrl: Option<string>, faults: Faults, trace: seq<Step>)
    requires id in s.rows
    requires s == Replay(s0, trace)
    ensures var o := Save(s, id, title, content, imageUrl, faults, trace);
      o.state == Replay(s0, o.trace)
  {
    var o := Save(s, id, title, content, imageUrl, faults, trace);
    ReplaySnoc(s0, trace, o.trace[|o.trace| - 1]);
    assert o.trace == trace + [o.trace[|o.trace| - 1]];
  }

  /** The stores a route leaves are exactly what its successful calls do, in the order issued. */
  lemma StateFollowsTrace(s: State, req: Request, env: Env)
    ensures Handle(s, req, env).state == Replay(s, Handle(s, req, env).trace)
    ensures HandleFixed(s, req, env).state == Replay(s, HandleFixed(s, req, env).trace)
  {
    match req
    case ListReq =>
    case GetReq(_) =>
    case CreateReq(title, content, withImage) =>
      var key := RandomImageName(env.rnd);
      if !withImage {
        InsertFollowsTrace(s, s, title, content, None, env.faults, []);
      } else if !env.faults.putFails {
        var put := [Step(PutObject(key), true)];
        assert Replay(s, put) == s.(blobs := s.blobs + {key});
        InsertFollowsTrace(s, s.(blobs := s.blobs + {key}), title, content, Some(key), env.faults, put);
      }
    case UpdateReq(id, title, content, withImage) =>
      if !LookupFails(id, env) && id in s.rows {
        var key := RandomImageName(env.rnd);
        var previous := s.rows[id].imageUrl;
        var s1 := s.(blobs := s.blobs + {key});
        var put := [Step(PutObject(key), true)];
        assert Replay(s, put) == s1;
        if !withImage {
          SaveFollowsTrace(s, s, id, title, content, previous, env.faults, []);
        } else if !env.faults.putFails {
          SaveFollowsTrace(s, s1, id, title, content, Some(key), env.faults, put);
          if Truthy(previous) {
            var del := Step(DeleteObject(previous.value), !env.faults.deleteFails);
            ReplaySnoc(s, put, del);
            if !env.faults.deleteFails {
              SaveFollowsTrace(s, s1.(blobs := s1.blobs - {previous.value}), id, title, content, Some(key), env.faults, put + [del]);
            }
            var saved := Save(s1, id, title, content, Some(key), env.faults, put);
            ReplaySnoc(s, saved.trace, del);
          }
        }
      }
    case DeleteReq(id) =>
      if !LookupFails(id, env) && id in s.rows && !env.faults.writeFails {
        var destroy := [Step(DestroyRow(id), true)];
        var s1 := s.(rows := s.rows - {id});
        assert Replay(s, destroy) == s1;
        var previous := s.rows[id].imageUrl;
        if Truthy(previous) {
          ReplaySnoc(s, destroy, Step(DeleteObject(previous.value), !env.faults.deleteFails));
        }
      }
  }
}

=== FILE: update_fix.dfy ===
/**
 PUT `/:id` deletes the old image before it saves the row
 (server/routes/notes.js:127-141). When the save then fails — a database
 error, or simply a title the `varchar(255)` column refuses, which only the
 save checks — the request answers 500 and the row still names an object that
 no longer exists. `UpdateNoteFixed` saves first and deletes afterwards, so
 a failure at any point leaves at worst an orphaned object; the server
 that uses it keeps "no dangling key" over any run of requests.
 */
module UpdateFix {
  import opened Options
  import opened ImageName
  import opened NoteModel
  import opened NoteStore
  import opened NoteRoutes
  import opened Consistency

  /** The PUT failure as written: every store call succeeds up to the save, and the save is refused. */
  lemma AsWrittenUpdateCanDangle(s: State, id: int, title: Option<string>, content: Option<string>, env: Env)
    requires WellFormed(s) && NoDangling(s) && FreshKey(s, env)
    requires id in s.rows && Truthy(s.rows[id].imageUrl)
    requires !env.faults.lookupFails && !env.faults.putFails && !env.faults.deleteFails
    requires env.faults.writeFails || !Storable(title, content, None)
    ensures var o := UpdateNote(s, id, title, content, true, env);
      && o.response == Failed
      && o.trace == [Step(PutObject(RandomImageName(env.rnd)), true),
                     Step(DeleteObject(s.rows[id].imageUrl.value), true),
                     Step(SaveRow(id, title, content, Some(RandomImageName(env.rnd))), false)]
      && o.state.rows == s.rows
      && s.rows[id].imageUrl.value !in o.state.blobs
      && !NoDangling(o.state)
  {
  }

  /** A concrete instance with no external failure at all: a 256-character title not ending in a space. */
  lemma LongTitleLeavesDanglingKey()
    ensures var k := RandomImageName(seq(KeyBytes, _ => 0 as byte));
      var s := State(map[1 := Note(1, "a", None, Some(k), 0, 0)], {k}, 2, 1);
      var env := Env(NoFaults, seq(KeyBytes, _ => 1 as byte), _ => None);
      var o := UpdateNote(s, 1, Some(seq(TitleMaxLength + 1, _ => 'x')), None, true, env);
      && Consistent(s) && FreshKey(s, env)
      && o.response == Failed
      && !NoDangling(o.state)
  {
    var zero, one := seq(KeyBytes, _ => 0 as byte), seq(KeyBytes, _ => 1 as byte);
    var k, k' := RandomImageName(zero), RandomImageName(one);
    assert k[1] == HexDigit(0) && k'[1] == HexDigit(1);
    var s := State(map[1 := Note(1, "a", None, Some(k), 0, 0)], {k}, 2, 1);
    var env := Env(NoFaults, one, _ => None);
    var title := seq(TitleMaxLength + 1, _ => 'x');
    assert title[TitleMaxLength] != ' ';
    GeneratedKeyFits(zero);
    assert RowWellFormed(s, 1);
    assert s.rows[1].imageUrl == Some(k);
    assert NoOrphans(s);
    AsWrittenUpdateCanDangle(s, 1, Some(title), None, env);
  }

  /** PUT `/:id` with the save moved before the delete: put the new image, save the row, then delete the old image. */
  function UpdateNoteFixed(s: State, id: int, title: Option<string>, content: Option<string>, withImage: bool, env: Env): (o: Outcome)
    ensures o.state.nextId == s.nextId
    ensures o.response.status == StatusOk || o.response == NotFound || o.response == Failed
    ensures o.response == NotFound <==> !LookupFails(id, env) && id !in s.rows
    ensures o.response == NotFound || LookupFails(id, env) ==> o.state == s && o.trace == []
    ensures !withImage ==> o.state.blobs == s.blobs && NoObjectStoreCall(o.trace)
    ensures o.state.rows == s.rows || (
      && id in s.rows && id in o.state.rows && title.Some?
      && Storable(title, content, if withImage then None else s.rows[id].imageUrl)
      && var n := o.state.rows[id];
      && o.state.rows == s.rows[id := n]
      && n.noteId == s.rows[id].noteId && n.createdAt == s.rows[id].createdAt
      && Some(n.title) == Varchar(title.value, TitleMaxLength) && n.content == content
      && n.imageUrl == (if withImage then Some(RandomImageName(env.rnd)) else StoredImage(s.rows[id].imageUrl)))
    ensures o.response.status == StatusOk ==>
      && id in s.rows && id in o.state.rows && title.Some?
      && o.response.body == OneNote(NoteView(
           o.state.rows[id].(title := title.value,
                             imageUrl := if withImage then Some(RandomImageName(env.rnd)) else s.rows[id].imageUrl), None))
    ensures o.state.blobs <= s.blobs + {RandomImageName(env.rnd)}
    ensures o.response.status == StatusOk && withImage ==>
      o.state.blobs == s.blobs + {RandomImageName(env.rnd)}
                       - (if Truthy(s.rows[id].imageUrl) then {s.rows[id].imageUrl.value} else {})
  {
    if LookupFails(id, env) then Outcome(s, Failed, [])
    else if id !in s.rows then Outcome(s, NotFound, [])
    else
      var previous := s.rows[id].imageUrl;
      if !withImage then Save(s, id, title, content, previous, env.faults, [])
      else
        var key := RandomImageName(env.rnd);
        GeneratedKeyFits(env.rnd);
        if env.faults.putFails then Outcome(s, Failed, [Step(PutObject(key), false)])
        else
          var saved := Save(s.(blobs := s.blobs + {key}), id, title, content, Some(key), env.faults,
                            [Step(PutObject(key), true)]);
          if saved.response.status != StatusOk || !Truthy(previous) then saved
          else if env.faults.deleteFails then
            Outcome(saved.state, Failed, saved.trace + [Step(DeleteObject(previous.value), false)])
          else
            Outcome(saved.state.(blobs := saved.state.blobs - {previous.value}), saved.response,
                    saved.trace + [Step(DeleteObject(previous.value), true)])
  }

  /**
   When no call fails and the new values are storable, the two orders reach
   the same stores and the same reply.
   */
  lemma FixedAgreesWhenNothingFails(s: State, id: int, title: Option<string>, content: Option<string>, withImage: bool, env: Env)
    requires env.faults == NoFaults
    requires withImage ==> Storable(title, content, None)
    ensures UpdateNoteFixed(s, id, title, content, withImage, env).state == UpdateNote(s, id, title, content, withImage, env).state
    ensures UpdateNoteFixed(s, id, title, content, withImage, env).response == UpdateNote(s, id, title, content, withImage, env).response
  {
  }

  lemma FixedUpdateWellFormed(s: State, id: int, title: Option<string>, content: Option<string>, withImage: bool, env: Env)
    requires WellFormed(s) && NoDangling(s) && FreshKey(s, env)
    ensures WellFormed(UpdateNoteFixed(s, id, title, content, withImage, env).state)
  {
  }

  lemma FixedUpdateNoDangling(s: State, id: int, title: Option<string>, content: Option<string>, withImage: bool, env: Env)
    requires WellFormed(s) && NoDangling(s) && FreshKey(s, env)
    ensures NoDangling(UpdateNoteFixed(s, id, title, content, withImage, env).state)
  {
  }

  lemma FixedUpdateNoOrphans(s: State, id: int, title: Option<string>, content: Option<string>, withImage: bool, env: Env)
    requires WellFormed(s) && NoOrphans(s)
    ensures var o := UpdateNoteFixed(s, id, title, content, withImage, env);
      o.response != Failed ==> NoOrphans(o.state)
  {
    var o := UpdateNoteFixed(s, id, title, content, withImage, env);
    var key := RandomImageName(env.rnd);
    if o.state.rows != s.rows {
      var previous := s.rows[id].imageUrl;
      forall k | o.response != Failed && k in o.state.blobs
        ensures exists j :: j in o.state.rows && o.state.rows[j].imageUrl == Some(k)
      {
        if withImage && k == key {
          assert o.state.rows[id].imageUrl == Some(k);
        } else {
          var j :| j in s.rows && s.rows[j].imageUrl == Some(k);
          if j == id {
            assert withImage ==> Some(k) == previous && Truthy(previous);
            assert o.state.rows[id].imageUrl == Some(k);
          } else {
            assert o.state.rows[j].imageUrl == Some(k);
          }
        }
      }
    }
  }

  lemma FixedUpdatePreserves(s: State, id: int, title: Option<string>, content: Option<string>, withImage: bool, env: Env)
    requires WellFormed(s) && NoDangling(s) && FreshKey(s, env)
    ensures var o := UpdateNoteFixed(s, id, title, content, withImage, env);
      && WellFormed(o.state) && NoDangling(o.state)
      && (NoOrphans(s) && o.response != Failed ==> NoOrphans(o.state))
  {
    FixedUpdateWellFormed(s, id, title, content, withImage, env);
    FixedUpdateNoDangling(s, id, title, content, withImage, env);
    if NoOrphans(s) {
      FixedUpdateNoOrphans(s, id, title, content, withImage, env);
    }
  }

  /** The router with the corrected PUT. */
  function HandleFixed(s: State, req: Request, env: Env): Outcome
  {
    match req
    case UpdateReq(id, title, content, withImage) => UpdateNoteFixed(s, id, title, content, withImage, env)
    case _ => Handle(s, req, env)
  }

  lemma HandleFixedPreserves(s: State, req: Request, env: Env)
    requires WellFormed(s) && NoDangling(s) && FreshKey(s, env)
    ensures var o := HandleFixed(s, req, env);
      && WellFormed(o.state) && NoDangling(o.state)
      && (NoOrphans(s) && o.response != Failed ==> NoOrphans(o.state))
  {
    match req
    case ListReq =>
    case GetReq(_) =>
    case CreateReq(title, content, withImage) => CreatePreserves(s, title, content, withImage, env);
    case UpdateReq(id, title, content, withImage) => FixedUpdatePreserves(s, id, title, content, withImage, env);
    case DeleteReq(id) => DeletePreserves(s, id, env);
  }

  /** One request together with what the outside world does during it. */
  datatype Arrival = Arrival(req: Request, env: Env)

  /** The stores after serving requests one after another with the corrected PUT. */
  function RunFixed(s: State, arrivals: seq<Arrival>): State
    decreases |arrivals|
  {
    if arrivals == [] then s
    else RunFixed(HandleFixed(s, arrivals[0].req, arrivals[0].env).state, arrivals[1..])
  }

  /** The random-name oracle gives a fresh 16-byte name at every request of the run. */
  ghost predicate FreshAlong(s: State, arrivals: seq<Arrival>)
    decreases |arrivals|
  {
    arrivals == [] ||
      (FreshKey(s, arrivals[0].env) &&
       FreshAlong(HandleFixed(s, arrivals[0].req, arrivals[0].env).state, arrivals[1..]))
  }

  /** No request of any run, failing or not, leaves a row naming a missing object. */
  lemma {:induction false} FixedServerNeverDangles(s: State, arrivals: seq<Arrival>)
    requires WellFormed(s) && NoDangling(s) && FreshAlong(s, arrivals)
    ensures WellFormed(RunFixed(s, arrivals)) && NoDangling(RunFixed(s, arrivals))
    decreases |arrivals|
  {
    if arrivals != [] {
      HandleFixedPreserves(s, arrivals[0].req, arrivals[0].env);
      FixedServerNeverDangles(HandleFixed(s, arrivals[0].req, arrivals[0].env).state, arrivals[1..]);
    }
  }
}
